=== FILE: README.md ===
# JWT auth demo: key lifecycle, token claims and bearer gate in Dafny

This project models the three pieces of sequential logic in a small JWT
authentication demo made of an auth service and a resource service:

- **The signing-key store** (`KeyManager`, `auth_service/key_manager.py`): a
  dict from key id (`kid`) to key record `{private key, public PEM,
  created_at, expires_at}` plus the current id. `rotate` inserts a new active
  key (no expiry), gives the previous current key an expiry `now + overlap`,
  and cleans up. `cleanup` evicts keys whose expiry is set and strictly
  earlier than `now`. `get_jwks` cleans up and publishes one RFC 7517 JSON
  Web Key per remaining key, with the RSA modulus and exponent written as
  Base64urlUInt (section 2 and section 6.3.1 of RFC 7518): the minimal
  big-endian octet string in the URL-safe alphabet of section 5 of RFC 4648,
  with the `=` padding stripped as in section 2 of RFC 7515.
  Modules `KeyStore`, `Jwks`, `Base64Url`, `BigEndian`, `Decimal`.
- **Token claims and the `/login` and `/refresh` decisions**
  (`auth_service/main.py`): role-to-permission resolution over the role
  catalog, the access and refresh payloads, and the two handlers over the
  user table and the in-memory refresh-token registry. Modules `Claims`,
  `AuthService`.
- **The bearer gate** (`token_required`, `resource_service/main.py`): the
  token is field 1 of Python's `header.split(" ")`, then the checks run in a
  fixed order (format, presence, signature and expiry, `type == 'access'`).
  Modules `PySplit`, `ResourceGate`.

The key store and the token logic are independent components, as in the
source: the live services sign and verify with static PEM files
(`auth_service/main.py:27-28`, `resource_service/main.py:18-19`) and never
consult the key store.

Everything is pure and immutable. The clock is a `now` parameter
(microseconds for the key store, whose instants are `datetime` values;
whole seconds for token claims, which are JWT NumericDates). Key generation
is a `GeneratedKey` parameter. Signing and verification are function
parameters: `Payload -> string` signers and a `string -> DecodeResult`
verifier whose result is the claims, `ExpiredSignature` or
`InvalidToken(message)`. An uncaught Python `KeyError` becomes an explicit
outcome (`RotateFailed`, `InternalError`, `GateError`).

Behaviour of the code as written that the proofs make explicit:

- Two rotations within one second produce the same `kid` (`KidFor`). The
  new record overwrites the current one and then receives the expiry meant
  for its predecessor, so no key is active any more; with a negative overlap
  the current key is even evicted and the next rotation with a new id (a
  later second) raises KeyError (`KeyStore.RotateCollision`). The one-active-key invariant is therefore
  proved under a fresh-id precondition (`KeyStore.RotatePreservesInv`).
- `if self.current_kid` is Python truthiness, so an empty id would not be
  retired; the invariant includes a non-empty current id.
- `to_base64url_uint(0)` is the empty text, not the `AA` that section 2 of
  RFC 7518 prescribes for zero (`Base64Url.UIntZero`). RSA numbers are
  positive, so published keys are unaffected.
- Login reads a user's roles with `.get('roles', [])` but refresh reads
  `['roles']`: a user entry without roles can log in but its refresh raises
  KeyError (`AuthService.RolelessUserCannotRefresh`).
- The refresh handler never rotates or revokes the refresh token; in the
  model `Refresh` only reads the registry and returns no new registry.

Other facts about the code that the model reflects: rotation and the JWKS
are not wired to signing; there is no refresh-token revocation; no
resource route has a role or permission guard; the published numbers are
minimal-length, not fixed-width; and the one-active-key invariant can
break as described above.

## Model

| member | source | states |
|---|---|---|
| `BigEndian.BitLength` | auth_service/key_manager.py:100 | `bit_length` is the number of binary digits: 0 for 0, and otherwise `2^(r-1) <= v < 2^r` |
| `BigEndian.ByteLength` | auth_service/key_manager.py:100 | `(bit_length + 7) // 8` is the fewest octets holding `v`: `v < 256^r`, `256^(r-1) <= v` for `v > 0`, and 0 octets exactly for 0 |
| `BigEndian.FromToBytes` | auth_service/key_manager.py:100 | reading back the big-endian octets `to_bytes` produced gives the integer |
| `BigEndian.MinimalBytes` | auth_service/key_manager.py:100 | the octet string has the minimal length, reads back as `v`, is empty exactly for 0 and has no leading zero octet for `v > 0` |
| `BigEndian.BitLengthUnique` | auth_service/key_manager.py:100 | the bit-length bounds determine the bit length uniquely |
| `Base64Url.SextetOf` | auth_service/key_manager.py:101 | a character the alphabet lookup accepts is the character of the sextet it returns |
| `Base64Url.Sextets` | auth_service/key_manager.py:101 | a text maps to 6-bit groups iff every character is in the URL-safe alphabet, and the groups map back to the same text |
| `Base64Url.SextetsChars` | auth_service/key_manager.py:101 | reading the characters of any 6-bit groups gives those groups back |
| `Base64Url.EncodeSextets` | auth_service/key_manager.py:101 | `n` octets become `ceil(4n/3)` 6-bit groups |
| `Base64Url.DecodeEncodeSextets` | auth_service/key_manager.py:101 | regrouping the 6-bit groups of any octet string into octets recovers it |
| `Base64Url.EncodeDecodeSextets` | auth_service/key_manager.py:101 | any 6-bit groups the strict regrouping accepts are the groups of its result |
| `Base64Url.EncodePadded` | auth_service/key_manager.py:101 | `urlsafe_b64encode` output length is a multiple of 4 |
| `Base64Url.RStrip` | auth_service/key_manager.py:101 | `rstrip('=')` keeps a prefix, drops only `=` characters, and leaves no trailing `=` |
| `Base64Url.Encode` | auth_service/key_manager.py:101 | the unpadded encoding has `ceil(4n/3)` characters, all in the URL-safe alphabet |
| `Base64Url.PaddedEncoding` | auth_service/key_manager.py:101 | stripping `=` from the padded encoding leaves exactly the unpadded encoding |
| `Base64Url.DecodeEncode` | auth_service/key_manager.py:101 | decoding the unpadded encoding recovers the octets |
| `Base64Url.EncodeDecode` | auth_service/key_manager.py:101 | any text the strict decoder accepts is the encoding of its result, so the encoding is unique |
| `Base64Url.ToBase64UrlUInt` | auth_service/key_manager.py:98-101 | the helper's output is the unpadded encoding of the minimal octets, in the URL-safe alphabet, without `=` |
| `Base64Url.UIntRoundTrip` | auth_service/key_manager.py:98-101 | decoding the helper's output recovers every non-negative integer |
| `Base64Url.UIntMinimal` | auth_service/key_manager.py:98-101 | for `v > 0` the encoded octets have no leading zero octet and the fewest octets that hold `v` |
| `Base64Url.UIntZero` | auth_service/key_manager.py:98-101 | zero encodes as the empty text rather than `AA` |
| `Decimal.NatToString` | auth_service/key_manager.py:23 | the decimal text is non-empty digits with no leading zero |
| `Decimal.NatToStringInjective` | auth_service/key_manager.py:23 | different numbers have different decimal texts |
| `KeyStore.KidFor` | auth_service/key_manager.py:23 | a key id is `key-` followed by decimal digits that read back as the whole seconds of the clock |
| `KeyStore.KidsCollideWithinASecond` | auth_service/key_manager.py:23 | two ids coincide exactly when generated in the same second |
| `KeyStore.Keep` | auth_service/key_manager.py:66-67 | deleting dict keys keeps exactly the keys outside the deleted set, with no duplicates introduced |
| `KeyStore.KeepOrder` | auth_service/key_manager.py:66-67 | the surviving keys keep their relative dict order |
| `KeyStore.Cleanup` | auth_service/key_manager.py:59-67 | exactly the expired keys are removed; surviving records and the current id are unchanged, and the survivors keep their relative dict order |
| `KeyStore.EvictExpired` | auth_service/key_manager.py:59-67 | the source's collect-then-delete loops compute the same store as `Cleanup` |
| `KeyStore.CollectExpired` | auth_service/key_manager.py:61-64 | the first loop collects exactly the expired ids |
| `KeyStore.DeleteAll` | auth_service/key_manager.py:66-67 | the second loop removes exactly the collected ids from the dict and its order |
| `KeyStore.CleanupIdempotent` | auth_service/key_manager.py:59-67 | a second cleanup at the same instant changes nothing |
| `KeyStore.CleanupKeepsCurrent` | auth_service/key_manager.py:59-67 | cleanup keeps the current key, keeps a key expiring exactly at `now`, and preserves the invariant |
| `KeyStore.Rotate` | auth_service/key_manager.py:33-57 | rotation fails (KeyError) exactly when the truthy current id is missing and differs from the new id, leaving the new key inserted; on success it returns the new id, which becomes current; dict order stays well formed |
| `KeyStore.RotateInsertsActiveKey` | auth_service/key_manager.py:40-45 | with a fresh id the new key survives cleanup with no expiry and `created_at = now` |
| `KeyStore.RotateRetiresPrevious` | auth_service/key_manager.py:47-55 | a previous current key distinct from the new one gets expiry `now + overlap`, is otherwise unchanged, and survives iff the overlap is non-negative |
| `KeyStore.RotateKeepsOthers` | auth_service/key_manager.py:40-57 | every key other than the new and the previous current one survives iff not expired at `now`, unchanged |
| `KeyStore.RotatePreservesInv` | auth_service/key_manager.py:33-57 | with a fresh non-empty id, rotation succeeds and exactly one key, the current one, has no expiry afterwards |
| `KeyStore.RotateCollision` | auth_service/key_manager.py:40-55 | reusing the current id leaves no active key, evicts it for a negative overlap, and then the next rotation with a new id (a later second) fails |
| `KeyStore.Init` | auth_service/key_manager.py:9-13 | construction leaves one key, active and current, with the configured overlap, satisfying the invariant for a non-empty id |
| `KeyStore.InitDefault` | auth_service/key_manager.py:9-13 | the default overlap is 20 minutes, and the new manager has one current key and satisfies the invariant for a non-empty id |
| `KeyStore.GetCurrentKey` | auth_service/key_manager.py:69-70 | the current private key and id are returned iff the current id names a stored key |
| `KeyStore.CurrentKeyIsActive` | auth_service/key_manager.py:69-70 | under the invariant the lookup succeeds and returns the only key without expiry; after a fresh rotation it returns the new key |
| `Jwks.JwkOf` | auth_service/key_manager.py:103-110 | a record is `kty=RSA`, `use=sig`, `alg=RS256` for its kid, and its `n` and `e` decode to the key's modulus and exponent |
| `Jwks.GetJwks` | auth_service/key_manager.py:72-112 | the store is cleaned up and there is one record per remaining key, in dict order |
| `Jwks.JwksCompleteness` | auth_service/key_manager.py:72-112 | a kid is published iff the store holds it unexpired at `now`, and no kid is published twice |
| `Jwks.JwksRecordsDecode` | auth_service/key_manager.py:72-112 | every published record is an RS256 signing key of the store whose numbers decode to the stored key's |
| `Jwks.JwksPublishesCurrent` | auth_service/key_manager.py:72-112 | under the invariant the current key is always published |
| `Jwks.GeneratedKeyRecord` | auth_service/key_manager.py:16-20 | for the generated 2048-bit key with exponent 65537, `e` is `AQAB` and `n` has 342 characters |
| `Jwks.ExponentBytes` | auth_service/key_manager.py:16-20 | the exponent 65537 is the octets `01 00 01`, encoded `AQAB` |
| `Claims.RolePermissions` | auth_service/main.py:44-46 | a role contributes exactly the permissions the catalog lists for it, nothing if unknown |
| `Claims.PermissionsForRoles` | auth_service/main.py:37-47 | a permission is granted iff some listed role is in the catalog and lists it |
| `Claims.PermissionsOfConcat` | auth_service/main.py:42-46 | resolution of concatenated role lists is the union of the resolutions |
| `Claims.PermissionsDependOnRoleSet` | auth_service/main.py:42-47 | order, repetition and unknown roles do not affect the resolved set |
| `Claims.PermissionList` | auth_service/main.py:47 | `list(permissions)` has no duplicates and exactly the set's elements |
| `Claims.AccessPayload` | auth_service/main.py:49-60 | access claims carry `sub`, the roles unchanged, the resolved permissions, `type=access`, `iat = now`, and `exp - iat` equal to the access lifetime |
| `Claims.RefreshPayload` | auth_service/main.py:70-78 | refresh claims carry `sub`, `iat = now`, `exp - iat` equal to the refresh lifetime and `type=refresh`, with no roles or permissions |
| `Claims.PayloadKindsDisjoint` | auth_service/main.py:53-77 | no claim set is both an access and a refresh payload |
| `AuthService.Login` | auth_service/main.py:80-105 | tokens are issued iff both fields are non-empty, the user exists and the password matches; then the registry gains exactly `refresh_token -> username`, else 401 with the registry unchanged |
| `AuthService.Refresh` | auth_service/main.py:107-134 | a missing token gets 400; an expired or invalid one 401 with its own message; a wrong type 401; a refresh token not registered to its `sub` 401 "Invalid or revoked refresh token!"; a missing `type` or `sub` an uncaught KeyError; a new access token is issued iff the token is present, verifies, has `type=refresh`, is registered to its `sub`, and the user has roles, with the roles read from the user table; the registry is only read |
| `AuthService.RefreshRejectsAccessClaims` | auth_service/main.py:116-118 | access claims presented for refresh are refused as the wrong type |
| `AuthService.RefreshIgnoresOtherClaims` | auth_service/main.py:116-127 | only the token's `sub` and `type` influence the reply; nothing else is taken from the token |
| `AuthService.LoginThenRefresh` | auth_service/main.py:94-129 | a refresh token issued by login redeems for an access token with the user's roles at refresh time, and stays redeemable |
| `AuthService.RolelessUserCannotRefresh` | auth_service/main.py:94-126 | a user entry without roles logs in with no roles but its refresh fails with an uncaught KeyError |
| `PySplit.Split` | resource_service/main.py:29 | fields never contain the separator, and there is a second field iff the text contains the separator |
| `PySplit.JoinSplit` | resource_service/main.py:29 | joining the fields with the separator restores the header |
| `PySplit.SplitJoin` | resource_service/main.py:29 | splitting a join of separator-free fields gives the fields back |
| `ResourceGate.ExtractToken` | resource_service/main.py:24-34 | no or empty header is a missing token; a header without a space is a format error; otherwise the token is field 1, missing when empty; a token has no spaces |
| `ResourceGate.ExtractAfterScheme` | resource_service/main.py:29 | for any scheme word, the token is the word after the first space |
| `ResourceGate.ExtractAnyScheme` | resource_service/main.py:29 | the header `Foo xyz` yields the token `xyz` |
| `ResourceGate.ExtractEmptyField` | resource_service/main.py:29-34 | `Bearer ` and `Bearer  x` yield "Token is missing!" |
| `ResourceGate.ExtractNoSpace` | resource_service/main.py:28-31 | every non-empty header without a space yields 401 "Token format invalid!", whatever the verifier would say |
| `ResourceGate.TokenRequired` | resource_service/main.py:21-52 | format and presence failures answer 401 before verification; an expired token gets 401 "Token expired!" and an invalid one 401 "Invalid token: " plus the library's message; a verified token of another type gets the wrong-type 401; a verified token without `type`, or an access token without `sub`, is an uncaught KeyError; the handler is called iff the token verifies with `type=access` and a `sub`, and receives that `sub` |
| `ResourceGate.GateConsultsOnlyExtractedToken` | resource_service/main.py:24-38 | only the extracted token is verified, and nothing is verified when the header check fails |
| `ResourceGate.GateRejectsNonAccess` | resource_service/main.py:38-46 | a verified non-access token gets 401 for the type, an expired one "Token expired!" |
| `ResourceGate.IssuedTokensAtTheGate` | resource_service/main.py:36-50 | access claims from the issuer admit their subject under `Bearer`, refresh claims are refused as the wrong type |

## Left out

- RSA key generation and PEM serialisation (`generate_key`): the new key is a
  `GeneratedKey` parameter; the private key is opaque apart from its public
  numbers, and the stored PEM is carried but never read.
- JWT signing and verification (PyJWT, RS256 and HS256): signers and
  verifiers are function parameters; the exact expiry boundary lives inside
  the library.
- The clock: `now` is a parameter. `rotate` reads the clock and its
  `cleanup` reads it again; the model uses one instant for both, so with a
  zero overlap the source would usually evict the previous key at once
  while the model keeps it until the next cleanup. The access and refresh
  payloads each read the clock twice, for `exp` and for `iat`; in the
  model both timestamps of a payload share one instant.
- `KeyStore.KidFor`: takes the POSIX instant; the local-zone shift that
  `.timestamp()` applies to a naive `utcnow()` value is not modelled.
- `Jwks.GetJwks`: requires `KeyStore.Wf`, which says the modelled insertion
  order lists each dict key once; every store built by `Init`, `Rotate` and
  `Cleanup` satisfies it, as their contracts state.
- `Claims.PermissionList`: the order of Python's set iteration is left open.
- Request bodies are modelled as optional string fields. Non-string JSON
  values and a non-JSON body are outside the model; they behave unlike an
  absent field in places. For example, a truthy non-string `refresh_token`
  passes the presence check of `/refresh` and is refused by the JWT library
  with 401 "Invalid refresh token!", not with the 400 an absent field gets.
- Durations are whole numbers: the key store's overlap is whole minutes,
  and the token lifetimes are whole minutes (access) and whole days
  (refresh). `timedelta` also accepts fractional values from the
  constructor argument or the configuration file; those are not modelled.
  Nor is the `OverflowError` that `timedelta(minutes=...)` and
  `now + timedelta` raise when the overlap exceeds 999999999 days or the
  expiry falls outside the years 1 to 9999: `KeyStore.Rotate` succeeds for
  every integer overlap.
- User entries always have a `password`; a missing one would raise KeyError.
- Configuration and secrets loading, Flask routing, response headers and the
  fixed JSON body of `/protected`.
- The HTTP verification scripts, including their expectation of a 403 from
  an `/admin` route that the resource service does not have.
- Refresh-token revocation: the source has no operation that removes a
  registry entry.
- Concurrency and locking: the source has none.

=== FILE: auth_service.dfy ===
/** The decision logic of the auth service's `/login` and `/refresh`
    handlers over the user table, the role catalog and the in-memory
    refresh-token registry. Signing is a parameter: `signAccess` stands for
    RS256 with the service's private key, `signRefresh` for HS256 with the
    static refresh secret, and `decodeRefresh` for verifying a token with
    that secret. */
module AuthService {
  import opened Common
  import opened Claims

  /** One entry of the user table: the stored password and, when the entry
      has a `roles` key, the role list. */
  datatype User = User(password: string, roles: Option<seq<string>>)

  /** The refresh-token registry: token text to the username it was issued to. */
  type Registry = map<string, string>

  /** What the service loads at start and never changes. */
  datatype AuthEnv = AuthEnv(users: map<string, User>, catalog: Catalog, config: TokenConfig)

  /** The fields of a login body; an absent body or field is `None`. */
  datatype LoginRequest = LoginRequest(username: Option<string>, password: Option<string>)

  /** The field of a refresh body. */
  datatype RefreshRequest = RefreshRequest(refreshToken: Option<string>)

  /** A handler's reply: the JSON token bodies, an error status with its
      message, or an uncaught exception (an HTTP 500). */
  datatype Reply =
    | LoginTokens(accessToken: string, refreshToken: string)
    | NewAccessToken(accessToken: string)
    | Rejected(status: int, message: string)
    | InternalError

  datatype LoginOutcome = LoginOutcome(reply: Reply, registry: Registry)

  const LoginFailure: Reply := Rejected(401, "Could not verify")

  /** Python's truth value of an optional string field. */
  predicate Present(field: Option<string>)
  {
    field.Some? && field.value != ""
  }

  /** The login body names a known user and carries that user's password. */
  predicate Authenticates(users: map<string, User>, req: LoginRequest)
  {
    && Present(req.username) && Present(req.password)
    && req.username.value in users
    && users[req.username.value].password == req.password.value
  }

  /** `user_data.get('roles', [])`. */
  function RolesOrEmpty(u: User): seq<string>
  {
    if u.roles.Some? then u.roles.value else []
  }

  /** `login()`: on valid credentials, an access token for the user's roles
      and a refresh token that the registry now maps to the user; otherwise
      401 with the registry unchanged. */
  function Login(env: AuthEnv, registry: Registry, req: LoginRequest, now: int,
                 signAccess: Payload -> string, signRefresh: Payload -> string): (r: LoginOutcome)
    ensures r.reply.LoginTokens? <==> Authenticates(env.users, req)
    ensures !Authenticates(env.users, req) ==> r.reply == LoginFailure && r.registry == registry
    ensures Authenticates(env.users, req) ==>
      var u := req.username.value;
      && r.reply.accessToken == signAccess(AccessPayload(env.config, env.catalog, u, RolesOrEmpty(env.users[u]), now))
      && r.reply.refreshToken == signRefresh(RefreshPayload(env.config, u, now))
      && r.registry.Keys == registry.Keys + {r.reply.refreshToken}
      && r.registry[r.reply.refreshToken] == u
      && (forall t :: t in registry && t != r.reply.refreshToken ==> r.registry[t] == registry[t])
  {
    if !Present(req.username) || !Present(req.password) then LoginOutcome(LoginFailure, registry)
    else
      var username, password := req.username.value, req.password.value;
      if username in env.users && env.users[username].password == password then
        var roles := RolesOrEmpty(env.users[username]);
        var accessToken := signAccess(AccessPayload(env.config, env.catalog, username, roles, now));
        var refreshToken := signRefresh(RefreshPayload(env.config, username, now));
        LoginOutcome(LoginTokens(accessToken, refreshToken), registry[refreshToken := username])
      else
        LoginOutcome(LoginFailure, registry)
  }

  /** The registry maps `token` to `username`. */
  predicate Registered(registry: Registry, token: string, username: string)
  {
    token in registry && registry[token] == username
  }

  /** `refresh()`: a new access token for the token's subject, with the
      roles read from the user table now. The registry is only read: the
      refresh token is neither rotated nor revoked. */
  function Refresh(env: AuthEnv, registry: Registry, req: RefreshRequest, now: int,
                   decodeRefresh: string -> DecodeResult, signAccess: Payload -> string): (r: Reply)
    ensures !Present(req.refreshToken) ==> r == Rejected(400, "Refresh token is missing!")
    ensures Present(req.refreshToken) && decodeRefresh(req.refreshToken.value).ExpiredSignature? ==>
      r == Rejected(401, "Refresh token expired!")
    ensures Present(req.refreshToken) && decodeRefresh(req.refreshToken.value).InvalidToken? ==>
      r == Rejected(401, "Invalid refresh token!")
    ensures Present(req.refreshToken) && decodeRefresh(req.refreshToken.value).Decoded? ==>
      var p := decodeRefresh(req.refreshToken.value).payload;
      && (p.typ.Some? && p.typ.value != RefreshType ==> r == Rejected(401, "Invalid token type!"))
      && (p.typ == Some(RefreshType) && p.sub.Some? && !Registered(registry, req.refreshToken.value, p.sub.value) ==>
            r == Rejected(401, "Invalid or revoked refresh token!"))
      && (p.typ.None? || (p.typ == Some(RefreshType) && p.sub.None?) ==> r == InternalError)
    ensures r.NewAccessToken? <==>
      && Present(req.refreshToken)
      && var d := decodeRefresh(req.refreshToken.value);
      && d.Decoded? && d.payload.typ == Some(RefreshType) && d.payload.sub.Some?
      && Registered(registry, req.refreshToken.value, d.payload.sub.value)
      && d.payload.sub.value in env.users && env.users[d.payload.sub.value].roles.Some?
    ensures r.NewAccessToken? ==>
      var u := decodeRefresh(req.refreshToken.value).payload.sub.value;
      r.accessToken == signAccess(AccessPayload(env.config, env.catalog, u, env.users[u].roles.value, now))
  {
    if !Present(req.refreshToken) then Rejected(400, "Refresh token is missing!")
    else
      var token := req.refreshToken.value;
      match decodeRefresh(token)
      case ExpiredSignature => Rejected(401, "Refresh token expired!")
      case InvalidToken(_) => Rejected(401, "Invalid refresh token!")
      case Decoded(payload) =>
        if payload.typ.None? then InternalError
        else if payload.typ.value != RefreshType then Rejected(401, "Invalid token type!")
        else if payload.sub.None? then InternalError
        else
          var username := payload.sub.value;
          if !Registered(registry, token, username) then Rejected(401, "Invalid or revoked refresh token!")
          else if username !in env.users || env.users[username].roles.None? then InternalError
          else
            var roles := env.users[username].roles.value;
            NewAccessToken(signAccess(AccessPayload(env.config, env.catalog, username, roles, now)))
  }

  /** An access token's claims presented for refresh are refused as the
      wrong type, whatever the registry holds. */
  lemma RefreshRejectsAccessClaims(env: AuthEnv, registry: Registry, token: string, now: int,
                                   decodeRefresh: string -> DecodeResult, signAccess: Payload -> string)
    requires token != ""
    requires decodeRefresh(token).Decoded? && IsAccessPayload(decodeRefresh(token).payload)
    ensures Refresh(env, registry, RefreshRequest(Some(token)), now, decodeRefresh, signAccess)
      == Rejected(401, "Invalid token type!")
  {
  }

  /** Nothing is taken from the refresh token but its subject and type: two
      claim sets that agree on those get the same reply. */
  lemma RefreshIgnoresOtherClaims(env: AuthEnv, registry: Registry, token: string, now: int,
                                  d1: string -> DecodeResult, d2: string -> DecodeResult, signAccess: Payload -> string)
    requires d1(token).Decoded? && d2(token).Decoded?
    requires d1(token).payload.sub == d2(token).payload.sub
    requires d1(token).payload.typ == d2(token).payload.typ
    ensures Refresh(env, registry, RefreshRequest(Some(token)), now, d1, signAccess)
      == Refresh(env, registry, RefreshRequest(Some(token)), now, d2, signAccess)
  {
  }

  /** Redemption: once a login issued a refresh token, presenting it (while
      it verifies to the claims it was signed with) yields an access token
      for the same user with the roles the user table holds at refresh time,
      under whatever table is then in force; the registry is not changed, so
      the same token can be redeemed again. */
  lemma LoginThenRefresh(env: AuthEnv, registry: Registry, req: LoginRequest, t0: int,
                         signAccess: Payload -> string, signRefresh: Payload -> string,
                         env2: AuthEnv, t1: int, decodeRefresh: string -> DecodeResult)
    requires Authenticates(env.users, req)
    requires var rt := Login(env, registry, req, t0, signAccess, signRefresh).reply.refreshToken;
      rt != "" && decodeRefresh(rt) == Decoded(RefreshPayload(env.config, req.username.value, t0))
    requires req.username.value in env2.users && env2.users[req.username.value].roles.Some?
    ensures var out := Login(env, registry, req, t0, signAccess, signRefresh);
      var u := req.username.value;
      Refresh(env2, out.registry, RefreshRequest(Some(out.reply.refreshToken)), t1, decodeRefresh, signAccess)
        == NewAccessToken(signAccess(AccessPayload(env2.config, env2.catalog, u, env2.users[u].roles.value, t1)))
  {
  }

  /** A user entry without a `roles` key logs in with no roles, but its
      refresh raises KeyError: login reads `.get('roles', [])`, refresh reads
      `['roles']`. */
  lemma RolelessUserCannotRefresh(env: AuthEnv, registry: Registry, req: LoginRequest, t0: int,
                                  signAccess: Payload -> string, signRefresh: Payload -> string,
                                  t1: int, decodeRefresh: string -> DecodeResult)
    requires Authenticates(env.users, req) && env.users[req.username.value].roles.None?
    requires var rt := Login(env, registry, req, t0, signAccess, signRefresh).reply.refreshToken;
      rt != "" && decodeRefresh(rt) == Decoded(RefreshPayload(env.config, req.username.value, t0))
    ensures var out := Login(env, registry, req, t0, signAccess, signRefresh);
      && out.reply.accessToken == signAccess(AccessPayload(env.config, env.catalog, req.username.value, [], t0))
      && Refresh(env, out.registry, RefreshRequest(Some(out.reply.refreshToken)), t1, decodeRefresh, signAccess)
           == InternalError
  {
  }
}

=== FILE: base64url.dfy ===
/** The URL-safe base64 alphabet of section 5 of RFC 4648, Python's
    `base64.urlsafe_b64encode` (padded output), `str.rstrip('=')`, and the
    Base64urlUInt text form of section 2 of RFC 7518 as the key manager's
    `to_base64url_uint` helper computes it, with a strict decoder as its
    inverse.

    Encoding goes through two layers: octets to 6-bit groups (arithmetic
    only), then each group to its character. */
module Base64Url {
  import opened Common
  import opened BigEndian

  /** A 6-bit group, the value one base64 character carries. */
  type Sextet = x: int | 0 <= x < 64

  /** The character for a sextet: `A`-`Z`, `a`-`z`, `0`-`9`, then `-` and `_`. */
  function CharOf(x: Sextet): char
  {
    if x < 26 then (x + 'A' as int) as char
    else if x < 52 then (x - 26 + 'a' as int) as char
    else if x < 62 then (x - 52 + '0' as int) as char
    else if x == 62 then '-'
    else '_'
  }

  /** The sextet a character stands for, or None outside the alphabet. */
  function SextetOf(c: char): (r: Option<Sextet>)
    ensures r.Some? ==> CharOf(r.value) == c
  {
    if 'A' <= c <= 'Z' then Some(c as int - 'A' as int)
    else if 'a' <= c <= 'z' then Some(c as int - 'a' as int + 26)
    else if '0' <= c <= '9' then Some(c as int - '0' as int + 52)
    else if c == '-' then Some(62)
    else if c == '_' then Some(63)
    else None
  }

  lemma SextetOfCharOf(x: Sextet)
    ensures SextetOf(CharOf(x)) == Some(x)
  {
  }

  /** `c` belongs to the URL-safe alphabet. */
  predicate InAlphabet(c: char)
  {
    SextetOf(c).Some?
  }

  /** The characters of a sequence of sextets. */
  function Chars(xs: seq<Sextet>): (r: string)
    ensures |r| == |xs|
    ensures forall i :: 0 <= i < |xs| ==> r[i] == CharOf(xs[i]) && InAlphabet(r[i])
  {
    seq(|xs|, i requires 0 <= i < |xs| => SextetOfCharOf(xs[i]); CharOf(xs[i]))
  }

  /** The sextets of a text, or None if some character is outside the alphabet. */
  function Sextets(s: string): (r: Option<seq<Sextet>>)
    ensures r.Some? <==> forall i :: 0 <= i < |s| ==> InAlphabet(s[i])
    ensures r.Some? ==> Chars(r.value) == s
  {
    if forall i :: 0 <= i < |s| ==> InAlphabet(s[i]) then
      var xs := seq(|s|, i requires 0 <= i < |s| => SextetOf(s[i]).value);
      assert Chars(xs) == s;
      Some(xs)
    else None
  }

  lemma SextetsChars(xs: seq<Sextet>)
    ensures Sextets(Chars(xs)) == Some(xs)
  {
    forall i | 0 <= i < |xs|
      ensures SextetOf(Chars(xs)[i]) == Some(xs[i])
    {
      SextetOfCharOf(xs[i]);
    }
    var s := Chars(xs);
    assert forall i :: 0 <= i < |s| ==> InAlphabet(s[i]);
    assert Sextets(s).value == xs;
  }

  /** Division and remainder undo a shift by a small constant. */
  lemma SplitAt(hi: int, lo: int, k: int)
    requires k == 4 || k == 16 || k == 64
    requires 0 <= lo < k
    ensures (hi * k + lo) / k == hi && (hi * k + lo) % k == lo
  {
  }

  /** The four sextets of three octets. */
  function Group(b0: Byte, b1: Byte, b2: Byte): seq<Sextet>
  {
    [b0 / 4, b0 % 4 * 16 + b1 / 16, b1 % 16 * 4 + b2 / 64, b2 % 64]
  }

  /** Octets to sextets: every 3 octets give 4 sextets; a final single octet
      gives 2 and a final pair gives 3, the unused low bits zero. */
  function EncodeSextets(b: seq<Byte>): (r: seq<Sextet>)
    ensures |r| == (4 * |b| + 2) / 3
  {
    if |b| == 0 then []
    else if |b| == 1 then [b[0] / 4, b[0] % 4 * 16]
    else if |b| == 2 then [b[0] / 4, b[0] % 4 * 16 + b[1] / 16, b[1] % 16 * 4]
    else Group(b[0], b[1], b[2]) + EncodeSextets(b[3..])
  }

  /** The three octets of four sextets. */
  function Ungroup(x0: Sextet, x1: Sextet, x2: Sextet, x3: Sextet): seq<Byte>
  {
    [x0 * 4 + x1 / 16, x1 % 16 * 16 + x2 / 4, x2 % 4 * 64 + x3]
  }

  /** Sextets to octets, strictly: a final group of one sextet, or a short
      final group whose unused low bits are not zero, is rejected. */
  function DecodeSextets(xs: seq<Sextet>): Option<seq<Byte>>
  {
    if |xs| == 0 then Some([])
    else if |xs| == 1 then None
    else if |xs| == 2 then
      if xs[1] % 16 != 0 then None else Some([xs[0] as int * 4 + xs[1] / 16])
    else if |xs| == 3 then
      if xs[2] % 4 != 0 then None else Some([xs[0] as int * 4 + xs[1] / 16, xs[1] as int % 16 * 16 + xs[2] / 4])
    else match DecodeSextets(xs[4..])
      case None => None
      case Some(rest) => Some(Ungroup(xs[0], xs[1], xs[2], xs[3]) + rest)
  }

  lemma UngroupGroup(b0: Byte, b1: Byte, b2: Byte)
    ensures var g := Group(b0, b1, b2); Ungroup(g[0], g[1], g[2], g[3]) == [b0, b1, b2]
  {
    SplitAt(b0 / 4, b0 % 4, 4);
    SplitAt(b0 % 4, b1 / 16, 16);
    SplitAt(b1 / 16, b1 % 16, 16);
    SplitAt(b1 % 16, b2 / 64, 4);
    SplitAt(b2 / 64, b2 % 64, 64);
  }

  lemma {:induction false} DecodeEncodeSextets(b: seq<Byte>)
    ensures DecodeSextets(EncodeSextets(b)) == Some(b)
  {
    if |b| == 1 {
      assert b == [b[0]];
      DecodeEncodeOne(b[0]);
    } else if |b| == 2 {
      assert b == [b[0], b[1]];
      DecodeEncodeTwo(b[0], b[1]);
    } else if |b| > 2 {
      var xs := EncodeSextets(b);
      var g := Group(b[0], b[1], b[2]);
      assert xs[..4] == g && xs[4..] == EncodeSextets(b[3..]);
      UngroupGroup(b[0], b[1], b[2]);
      DecodeEncodeSextets(b[3..]);
      assert b == [b[0], b[1], b[2]] + b[3..];
    }
  }

  lemma DecodeEncodeOne(b0: Byte)
    ensures DecodeSextets(EncodeSextets([b0])) == Some([b0])
  {
    SplitAt(b0 / 4, b0 % 4, 4);
  }

  lemma DecodeEncodeTwo(b0: Byte, b1: Byte)
    ensures DecodeSextets(EncodeSextets([b0, b1])) == Some([b0, b1])
  {
    SplitAt(b0 / 4, b0 % 4, 4);
    SplitAt(b0 % 4, b1 / 16, 16);
    SplitAt(b1 / 16, b1 % 16, 16);
  }

  /** Three octets make exactly one group. */
  lemma EncodeOneGroup(b0: Byte, b1: Byte, b2: Byte)
    ensures EncodeSextets([b0, b1, b2]) == Group(b0, b1, b2)
  {
    var b: seq<Byte> := [b0, b1, b2];
    assert b[3..] == [];
    assert EncodeSextets(b) == Group(b[0], b[1], b[2]) + EncodeSextets([]);
  }

  lemma GroupUngroup(x0: Sextet, x1: Sextet, x2: Sextet, x3: Sextet)
    ensures var u := Ungroup(x0, x1, x2, x3); Group(u[0], u[1], u[2]) == [x0, x1, x2, x3]
  {
    SplitAt(x0, x1 / 16, 4);
    SplitAt(x1 / 16, x1 % 16, 16);
    SplitAt(x1 % 16, x2 / 4, 16);
    SplitAt(x2 / 4, x2 % 4, 4);
    SplitAt(x2 % 4, x3, 64);
  }

  lemma {:induction false} EncodeDecodeSextets(xs: seq<Sextet>)
    requires DecodeSextets(xs).Some?
    ensures EncodeSextets(DecodeSextets(xs).value) == xs
  {
    var b := DecodeSextets(xs).value;
    if |xs| == 2 {
      assert xs == [xs[0], xs[1]];
      EncodeDecodeTwo(xs[0], xs[1]);
    } else if |xs| == 3 {
      assert xs == [xs[0], xs[1], xs[2]];
      EncodeDecodeThree(xs[0], xs[1], xs[2]);
    } else if |xs| > 3 {
      var u := Ungroup(xs[0], xs[1], xs[2], xs[3]);
      var rest := DecodeSextets(xs[4..]).value;
      assert b == u + rest;
      assert b[..3] == u && b[3..] == rest;
      GroupUngroup(xs[0], xs[1], xs[2], xs[3]);
      EncodeDecodeSextets(xs[4..]);
      assert xs == xs[..4] + xs[4..];
    }
  }

  lemma EncodeDecodeTwo(x0: Sextet, x1: Sextet)
    requires x1 % 16 == 0
    ensures DecodeSextets([x0, x1]) == Some([x0 * 4 + x1 / 16])
    ensures EncodeSextets([x0 * 4 + x1 / 16]) == [x0, x1]
  {
    SplitAt(x0, x1 / 16, 4);
    SplitAt(x1 / 16, x1 % 16, 16);
  }

  lemma EncodeDecodeThree(x0: Sextet, x1: Sextet, x2: Sextet)
    requires x2 % 4 == 0
    ensures DecodeSextets([x0, x1, x2]) == Some([x0 * 4 + x1 / 16, x1 % 16 * 16 + x2 / 4])
    ensures EncodeSextets([x0 * 4 + x1 / 16, x1 % 16 * 16 + x2 / 4]) == [x0, x1, x2]
  {
    SplitAt(x0, x1 / 16, 4);
    SplitAt(x1 / 16, x1 % 16, 16);
    SplitAt(x1 % 16, x2 / 4, 16);
    SplitAt(x2 / 4, x2 % 4, 4);
  }

  /** The unpadded base64url form of section 2 of RFC 7515. */
  function Encode(b: seq<Byte>): (r: string)
    ensures |r| == (4 * |b| + 2) / 3
    ensures forall i :: 0 <= i < |r| ==> InAlphabet(r[i])
  {
    Chars(EncodeSextets(b))
  }

  /** The `=` characters that complete a final group of `n` octets. */
  function Padding(n: nat): string
    requires n < 3
  {
    if n == 1 then "==" else if n == 2 then "=" else ""
  }

  /** `base64.urlsafe_b64encode`: the encoding completed with `=` to a
      multiple of 4 characters (section 4 of RFC 4648). */
  function EncodePadded(b: seq<Byte>): (r: string)
    ensures |r| % 4 == 0
  {
    PaddedLength(|b|);
    Encode(b) + Padding(|b| % 3)
  }

  lemma PaddedLength(n: nat)
    ensures ((4 * n + 2) / 3 + |Padding(n % 3)|) % 4 == 0
  {
    var q, m := n / 3, n % 3;
    assert 4 * n + 2 == 3 * (4 * q) + (4 * m + 2);
    assert (4 * n + 2) / 3 == 4 * q + (4 * m + 2) / 3;
  }

  /** `s.rstrip(c)`: drop every trailing occurrence of `c`. */
  function RStrip(s: string, c: char): (r: string)
    ensures |r| <= |s| && r == s[..|r|]
    ensures forall i :: |r| <= i < |s| ==> s[i] == c
    ensures |r| == 0 || r[|r| - 1] != c
  {
    if |s| > 0 && s[|s| - 1] == c then RStrip(s[..|s| - 1], c) else s
  }

  lemma {:induction false} RStripPadding(s: string, pad: string)
    requires forall i :: 0 <= i < |s| ==> InAlphabet(s[i])
    requires forall i :: 0 <= i < |pad| ==> pad[i] == '='
    ensures RStrip(s + pad, '=') == s
    decreases |pad|
  {
    if |pad| > 0 {
      assert (s + pad)[..|s + pad| - 1] == s + pad[..|pad| - 1];
      RStripPadding(s, pad[..|pad| - 1]);
    } else {
      assert s + pad == s;
      if |s| > 0 {
        assert InAlphabet(s[|s| - 1]);
      }
    }
  }

  /** Stripping the padding off the padded form leaves exactly the unpadded form. */
  lemma PaddedEncoding(b: seq<Byte>)
    ensures RStrip(EncodePadded(b), '=') == Encode(b)
  {
    RStripPadding(Encode(b), Padding(|b| % 3));
  }

  /** The strict inverse of `Encode`: rejects characters outside the
      alphabet, a final group of one character, and final groups whose
      unused low bits are not zero. */
  function Decode(s: string): Option<seq<Byte>>
  {
    match Sextets(s)
    case None => None
    case Some(xs) => DecodeSextets(xs)
  }

  /** Decoding an encoding gives the octets back. */
  lemma DecodeEncode(b: seq<Byte>)
    ensures Decode(Encode(b)) == Some(b)
  {
    SextetsChars(EncodeSextets(b));
    DecodeEncodeSextets(b);
  }

  /** A text the decoder accepts is the encoding of what it decodes to, so
      every octet string has exactly one unpadded base64url text. */
  lemma EncodeDecode(s: string)
    requires Decode(s).Some?
    ensures Encode(Decode(s).value) == s
  {
    EncodeDecodeSextets(Sextets(s).value);
  }

  /** The key manager's `to_base64url_uint(val)`: the minimal big-endian
      octet string of `val`, base64url-encoded, with the padding stripped. */
  function ToBase64UrlUInt(v: nat): (r: string)
    ensures r == Encode(MinimalBytes(v))
    ensures forall i :: 0 <= i < |r| ==> InAlphabet(r[i]) && r[i] != '='
  {
    var b := MinimalBytes(v);
    PaddedEncoding(b);
    PadNotInAlphabet();
    RStrip(EncodePadded(b), '=')
  }

  /** The padding character is not a base64url character. */
  lemma PadNotInAlphabet()
    ensures !InAlphabet('=')
  {
  }

  /** Reads a Base64urlUInt text back into an integer. */
  function FromBase64UrlUInt(s: string): Option<nat>
  {
    match Decode(s)
    case None => None
    case Some(b) => Some(FromBytes(b))
  }

  /** The encoder's round trip: every non-negative integer is recovered. */
  lemma UIntRoundTrip(v: nat)
    ensures FromBase64UrlUInt(ToBase64UrlUInt(v)) == Some(v)
  {
    DecodeEncode(MinimalBytes(v));
  }

  /** A positive value is encoded from an octet string with no leading zero
      octet and of the fewest octets that hold it, as section 2 of RFC 7518
      requires. */
  lemma UIntMinimal(v: nat)
    requires v > 0
    ensures var b := MinimalBytes(v);
      |b| >= 1 && b[0] != 0 && Pow2(8 * (|b| - 1)) <= v < Pow2(8 * |b|)
      && ToBase64UrlUInt(v) == Encode(b)
  {
  }

  /** Zero encodes as the empty text, not as the `AA` (one zero octet) that
      section 2 of RFC 7518 prescribes. */
  lemma UIntZero()
    ensures ToBase64UrlUInt(0) == ""
  {
  }
}

=== FILE: big_endian.dfy ===
/** Python's `int.bit_length` and `int.to_bytes(length, byteorder='big')`
    on non-negative integers, and the inverse reading of a big-endian octet
    string. */
module BigEndian {

  /** An octet. */
  type Byte = b: int | 0 <= b < 256

  /** 2 to the power `k`. */
  function Pow2(k: nat): (r: nat)
    ensures r >= 1
  {
    if k == 0 then 1 else 2 * Pow2(k - 1)
  }

  lemma {:induction false} Pow2Add(a: nat, b: nat)
    ensures Pow2(a + b) == Pow2(a) * Pow2(b)
  {
    if a > 0 {
      Pow2Add(a - 1, b);
      assert Pow2(a + b) == 2 * Pow2(a - 1 + b);
    }
  }

  lemma {:induction false} Pow2Monotone(a: nat, b: nat)
    requires a <= b
    ensures Pow2(a) <= Pow2(b)
  {
    if a < b {
      Pow2Monotone(a, b - 1);
    }
  }

  /** One more octet multiplies the value range by 256. */
  lemma Pow2Octet(k: nat)
    ensures Pow2(8 * (k + 1)) == 256 * Pow2(8 * k)
  {
    Pow2Add(8 * k, 8);
    assert Pow2(8) == 256;
  }

  /** Python's `v.bit_length()`: the number of binary digits of `v`, 0 for 0. */
  function BitLength(v: nat): (r: nat)
    ensures v < Pow2(r)
    ensures v > 0 ==> r >= 1 && Pow2(r - 1) <= v
    ensures v == 0 ==> r == 0
  {
    if v == 0 then 0 else 1 + BitLength(v / 2)
  }

  /** The bounds of the ensures above characterise the bit length exactly. */
  lemma {:induction false} BitLengthUnique(v: nat, k: nat)
    requires k >= 1 && Pow2(k - 1) <= v < Pow2(k)
    ensures BitLength(v) == k
  {
    var b := BitLength(v);
    if b < k {
      Pow2Monotone(b, k - 1);
    } else if b > k {
      Pow2Monotone(k, b - 1);
    }
  }

  /** The octet count `(v.bit_length() + 7) // 8` used by the key manager's
      Base64urlUInt helper: the fewest octets that hold `v`. */
  function ByteLength(v: nat): (r: nat)
    ensures v < Pow2(8 * r)
    ensures v > 0 ==> r >= 1 && Pow2(8 * (r - 1)) <= v
    ensures v == 0 <==> r == 0
  {
    var bl := BitLength(v);
    var r := (bl + 7) / 8;
    Pow2Monotone(bl, 8 * r);
    if v > 0 then Pow2Monotone(8 * (r - 1), bl - 1); r else r
  }

  /** `v.to_bytes(len, 'big')`; Python raises OverflowError when `v` does not
      fit, which the precondition rules out. */
  function ToBytes(v: nat, len: nat): (r: seq<Byte>)
    requires v < Pow2(8 * len)
    ensures |r| == len
  {
    if len == 0 then []
    else
      Pow2Octet(len - 1);
      ToBytes(v / 256, len - 1) + [v % 256]
  }

  /** The unsigned value of a big-endian octet string. */
  function FromBytes(s: seq<Byte>): nat
  {
    if |s| == 0 then 0 else FromBytes(s[..|s| - 1]) * 256 + s[|s| - 1]
  }

  lemma {:induction false} FromBytesBound(s: seq<Byte>)
    ensures FromBytes(s) < Pow2(8 * |s|)
  {
    if |s| > 0 {
      FromBytesBound(s[..|s| - 1]);
      Pow2Octet(|s| - 1);
    }
  }

  /** Reading the leading octet first: its weight is 256 to the power of the
      number of octets after it. */
  lemma {:induction false} FromBytesLeading(s: seq<Byte>)
    requires |s| >= 1
    ensures FromBytes(s) == s[0] * Pow2(8 * (|s| - 1)) + FromBytes(s[1..])
  {
    if |s| > 1 {
      var init := s[..|s| - 1];
      FromBytesLeading(init);
      assert init[1..] == s[1..][..|s[1..]| - 1];
      Pow2Octet(|s| - 2);
      ShiftOctet(s[0], Pow2(8 * (|s| - 2)), FromBytes(init[1..]), s[|s| - 1]);
    } else {
      assert s[1..] == [];
    }
  }

  /** Appending an octet distributes over a leading term. */
  lemma ShiftOctet(a: int, w: int, t: int, l: int)
    ensures (a * w + t) * 256 + l == a * (256 * w) + (t * 256 + l)
  {
  }

  /** Decoding what `to_bytes` produced gives the integer back. */
  lemma {:induction false} FromToBytes(v: nat, len: nat)
    requires v < Pow2(8 * len)
    ensures FromBytes(ToBytes(v, len)) == v
  {
    if len > 0 {
      Pow2Octet(len - 1);
      var r := ToBytes(v, len);
      assert r[..len - 1] == ToBytes(v / 256, len - 1);
      FromToBytes(v / 256, len - 1);
    }
  }

  /** The octet string `v.to_bytes((v.bit_length() + 7) // 8, 'big')`. */
  function MinimalBytes(v: nat): (r: seq<Byte>)
    ensures |r| == ByteLength(v)
    ensures FromBytes(r) == v
    ensures v == 0 <==> r == []
    ensures v > 0 ==> r[0] != 0
  {
    var r := ToBytes(v, ByteLength(v));
    FromToBytes(v, ByteLength(v));
    if v > 0 then FromBytesLeading(r); FromBytesBound(r[1..]); r else r
  }
}

=== FILE: claims.dfy ===
/** The auth service's claim sets: role-to-permission resolution and the
    payloads of access and refresh tokens. Signing and verification are
    outside the model; a verifier's verdict on a token is a `DecodeResult`. */
module Claims {
  import opened Common

  /** The `type` claims of the two token kinds. */
  const AccessType: string := "access"
  const RefreshType: string := "refresh"

  const SecondsPerMinute: int := 60
  const SecondsPerDay: int := 86400

  /** A JWT claim set as a JSON object; `None` is an absent key. Times are
      whole seconds since the epoch, as JWT NumericDate values. */
  datatype Payload = Payload(
    sub: Option<string>,
    roles: Option<seq<string>>,
    permissions: Option<set<string>>,
    exp: Option<int>,
    iat: Option<int>,
    typ: Option<string>)

  /** What verifying and decoding a token yields: the claims, PyJWT's
      ExpiredSignatureError, or another InvalidTokenError with its message. */
  datatype DecodeResult = Decoded(payload: Payload) | ExpiredSignature | InvalidToken(message: string)

  /** The two lifetimes read from the configuration file. */
  datatype TokenConfig = TokenConfig(accessTokenExpirationMinutes: int, refreshTokenExpirationDays: int)

  /** The role catalog: role name to the permissions it lists. */
  type Catalog = map<string, seq<string>>

  /** `role` is in the catalog and lists permission `p`. */
  predicate Grants(catalog: Catalog, role: string, p: string)
  {
    role in catalog && p in catalog[role]
  }

  /** What one role contributes: its catalog permissions, or nothing for a
      role the catalog does not know. */
  function RolePermissions(catalog: Catalog, role: string): (r: set<string>)
    ensures forall p :: p in r <==> Grants(catalog, role, p)
  {
    if role in catalog then Elems(catalog[role]) else {}
  }

  /** `get_permissions_for_roles(roles)`: the union, over the roles in turn,
      of what each contributes. A permission is granted exactly when some
      listed role is in the catalog and lists it. */
  function PermissionsForRoles(catalog: Catalog, roles: seq<string>): (r: set<string>)
    ensures forall p :: p in r <==> exists i :: 0 <= i < |roles| && Grants(catalog, roles[i], p)
  {
    if |roles| == 0 then {}
    else
      var init := PermissionsForRoles(catalog, roles[..|roles| - 1]);
      assert forall i :: 0 <= i < |roles| - 1 ==> roles[..|roles| - 1][i] == roles[i];
      init + RolePermissions(catalog, roles[|roles| - 1])
  }

  /** Resolution distributes over concatenated role lists. */
  lemma {:induction false} PermissionsOfConcat(catalog: Catalog, a: seq<string>, b: seq<string>)
    ensures PermissionsForRoles(catalog, a + b) == PermissionsForRoles(catalog, a) + PermissionsForRoles(catalog, b)
  {
    if |b| > 0 {
      var b' := b[..|b| - 1];
      assert (a + b)[..|a + b| - 1] == a + b';
      PermissionsOfConcat(catalog, a, b');
    } else {
      assert a + b == a;
    }
  }

  /** Only the set of roles matters: order and repetition do not, and a role
      missing from the catalog contributes nothing. */
  lemma PermissionsDependOnRoleSet(catalog: Catalog, a: seq<string>, b: seq<string>)
    requires forall r :: r in catalog ==> (r in a <==> r in b)
    ensures PermissionsForRoles(catalog, a) == PermissionsForRoles(catalog, b)
  {
    forall p | p in PermissionsForRoles(catalog, a)
      ensures p in PermissionsForRoles(catalog, b)
    {
      var i :| 0 <= i < |a| && Grants(catalog, a[i], p);
      var j :| 0 <= j < |b| && b[j] == a[i];
    }
    forall p | p in PermissionsForRoles(catalog, b)
      ensures p in PermissionsForRoles(catalog, a)
    {
      var i :| 0 <= i < |b| && Grants(catalog, b[i], p);
      var j :| 0 <= j < |a| && a[j] == b[i];
    }
  }

  /** `list(permissions)`: the resolved set as a list without duplicates, in
      an order the model leaves open (Python's set iteration order). */
  method PermissionList(perms: set<string>) returns (l: seq<string>)
    ensures NoDup(l)
    ensures forall p :: p in l <==> p in perms
    ensures |l| == |perms|
  {
    l := [];
    var rest := perms;
    while rest != {}
      invariant NoDup(l)
      invariant forall p :: p in l <==> p in perms && p !in rest
      invariant rest <= perms
      invariant |l| + |rest| == |perms|
      decreases |rest|
    {
      var p :| p in rest;
      l := l + [p];
      rest := rest - {p};
    }
  }

  /** The payload `generate_access_token` signs, with one `now` for both
      timestamps. */
  function AccessPayload(cfg: TokenConfig, catalog: Catalog, username: string, roles: seq<string>, now: int): (r: Payload)
    ensures IsAccessPayload(r)
    ensures r.sub == Some(username) && r.roles == Some(roles)
    ensures r.permissions == Some(PermissionsForRoles(catalog, roles))
    ensures r.iat == Some(now)
    ensures r.exp.value - r.iat.value == cfg.accessTokenExpirationMinutes * SecondsPerMinute
  {
    Payload(Some(username), Some(roles), Some(PermissionsForRoles(catalog, roles)),
      Some(now + cfg.accessTokenExpirationMinutes * SecondsPerMinute), Some(now), Some(AccessType))
  }

  /** The payload `generate_refresh_token` signs: identity and lifetime only. */
  function RefreshPayload(cfg: TokenConfig, username: string, now: int): (r: Payload)
    ensures IsRefreshPayload(r)
    ensures r.sub == Some(username) && r.iat == Some(now)
    ensures r.exp.value - r.iat.value == cfg.refreshTokenExpirationDays * SecondsPerDay
  {
    Payload(Some(username), None, None, Some(now + cfg.refreshTokenExpirationDays * SecondsPerDay), Some(now), Some(RefreshType))
  }

  /** The shape of an access claim set: every key present, type `access`. */
  predicate IsAccessPayload(p: Payload)
  {
    p.sub.Some? && p.roles.Some? && p.permissions.Some? && p.exp.Some? && p.iat.Some?
    && p.typ == Some(AccessType)
  }

  /** The shape of a refresh claim set: `sub`, `exp`, `iat` and type
      `refresh`, with no roles and no permissions. */
  predicate IsRefreshPayload(p: Payload)
  {
    p.sub.Some? && p.roles.None? && p.permissions.None? && p.exp.Some? && p.iat.Some?
    && p.typ == Some(RefreshType)
  }

  /** The two kinds cannot be mistaken for each other. */
  lemma PayloadKindsDisjoint(p: Payload)
    ensures !(IsAccessPayload(p) && IsRefreshPayload(p))
  {
    assert AccessType[0] != RefreshType[0];
  }
}

=== FILE: common.dfy ===
/** Small shared vocabulary: an optional value (Python's `None` or a value),
    a returned-or-raised result, duplicate-freedom of sequences, and one
    sequence occurring in order inside another. */
module Common {

  /** A value that may be absent, as a Python attribute or dict entry that may be `None`. */
  datatype Option<+T> = None | Some(value: T)

  /** The value of a call that either returns or raises. */
  datatype Result<+T, +E> = Success(value: T) | Failure(error: E)

  /** No element occurs twice in `s`. */
  predicate NoDup<T(==)>(s: seq<T>)
  {
    forall i, j :: 0 <= i < j < |s| ==> s[i] != s[j]
  }

  /** The elements of a sequence, as a set. */
  function Elems<T(!new)>(s: seq<T>): (r: set<T>)
    ensures forall x :: x in r <==> x in s
  {
    set x | x in s
  }

  /** `idx` picks the elements of `r` out of `s` at strictly increasing positions. */
  predicate Embeds<T(==)>(idx: seq<int>, r: seq<T>, s: seq<T>)
  {
    && |idx| == |r|
    && (forall i :: 0 <= i < |idx| ==> 0 <= idx[i] < |s| && s[idx[i]] == r[i])
    && (forall i, j :: 0 <= i < j < |idx| ==> idx[i] < idx[j])
  }

  /** `r` is `s` with some elements left out, the rest in their original order. */
  ghost predicate Subsequence<T>(r: seq<T>, s: seq<T>)
  {
    exists idx :: Embeds(idx, r, s)
  }
}

=== FILE: decimal.dfy ===
/** Python's `str(n)` for a non-negative integer, as used to build key ids. */
module Decimal {

  function DigitChar(d: int): char
    requires 0 <= d < 10
  {
    (d + '0' as int) as char
  }

  /** The decimal text of `n`: digits only, no leading zero. */
  function NatToString(n: nat): (r: string)
    ensures |r| >= 1
    ensures forall i :: 0 <= i < |r| ==> '0' <= r[i] <= '9'
    ensures |r| > 1 ==> r[0] != '0'
  {
    if n < 10 then [DigitChar(n)] else NatToString(n / 10) + [DigitChar(n % 10)]
  }

  /** Reads a string of decimal digits. */
  function StringToNat(s: string): nat
    requires forall i :: 0 <= i < |s| ==> '0' <= s[i] <= '9'
  {
    if |s| == 0 then 0
    else StringToNat(s[..|s| - 1]) * 10 + (s[|s| - 1] as int - '0' as int)
  }

  lemma {:induction false} StringToNatToString(n: nat)
    ensures StringToNat(NatToString(n)) == n
  {
    if n >= 10 {
      var s := NatToString(n);
      assert s[..|s| - 1] == NatToString(n / 10);
      StringToNatToString(n / 10);
    }
  }

  /** Different numbers have different decimal texts. */
  lemma NatToStringInjective(a: nat, b: nat)
    ensures NatToString(a) == NatToString(b) <==> a == b
  {
    if NatToString(a) == NatToString(b) {
      StringToNatToString(a);
      StringToNatToString(b);
    }
  }
}

=== FILE: jwks.dfy ===
/** `KeyManager.get_jwks()`: a JSON Web Key Set (RFC 7517) with one RSA
    public-key record per key left after cleanup, the modulus and exponent
    written as Base64urlUInt (section 6.3.1 of RFC 7518). */
module Jwks {
  import opened Common
  import opened BigEndian
  import opened Base64Url
  import opened KeyStore

  /** One JSON Web Key record. */
  datatype Jwk = Jwk(kty: string, kid: Kid, use: string, alg: string, n: string, e: string)

  /** The public-key record for one stored key. */
  function JwkOf(kid: Kid, entry: KeyEntry): (r: Jwk)
    ensures r.kty == "RSA" && r.use == "sig" && r.alg == "RS256" && r.kid == kid
    ensures FromBase64UrlUInt(r.n) == Some(entry.privateKey.modulus)
    ensures FromBase64UrlUInt(r.e) == Some(entry.privateKey.publicExponent)
  {
    UIntRoundTrip(entry.privateKey.modulus);
    UIntRoundTrip(entry.privateKey.publicExponent);
    Jwk("RSA", kid, "sig", "RS256",
        ToBase64UrlUInt(entry.privateKey.modulus),
        ToBase64UrlUInt(entry.privateKey.publicExponent))
  }

  /** The store after the call and the published key list. */
  datatype Published = Published(store: Store, keys: seq<Jwk>)

  /** `get_jwks()`: clean up at `now`, then one record per remaining key in
      dict order. */
  function GetJwks(s: Store, now: Micros): (r: Published)
    requires Wf(s)
    ensures r.store == Cleanup(s, now)
    ensures |r.keys| == |r.store.order|
    ensures forall i :: 0 <= i < |r.keys| ==>
      r.store.order[i] in r.store.keys && r.keys[i] == JwkOf(r.store.order[i], r.store.keys[r.store.order[i]])
  {
    var c := Cleanup(s, now);
    Published(c, seq(|c.order|, i requires 0 <= i < |c.order| && c.order[i] in c.keys =>
      JwkOf(c.order[i], c.keys[c.order[i]])))
  }

  /** The published kids, in order. */
  function Kids(keys: seq<Jwk>): (r: seq<Kid>)
    ensures |r| == |keys|
    ensures forall i :: 0 <= i < |keys| ==> r[i] == keys[i].kid
  {
    seq(|keys|, i requires 0 <= i < |keys| => keys[i].kid)
  }

  /** Completeness: a key id is published at `now` exactly when the store
      holds it and it is not expired at `now`, and no id is published twice. */
  lemma JwksCompleteness(s: Store, now: Micros)
    requires Wf(s)
    ensures var r := GetJwks(s, now);
      && NoDup(Kids(r.keys))
      && (forall kid :: kid in Kids(r.keys) <==> kid in s.keys && !Expired(s.keys[kid], now))
  {
    var r := GetJwks(s, now);
    assert Kids(r.keys) == r.store.order;
  }

  /** Every published record is an RS256 signing key of the store whose
      numbers decode to the stored key's modulus and exponent. */
  lemma JwksRecordsDecode(s: Store, now: Micros)
    requires Wf(s)
    ensures forall j :: j in GetJwks(s, now).keys ==>
      && j.kty == "RSA" && j.use == "sig" && j.alg == "RS256"
      && j.kid in s.keys && !Expired(s.keys[j.kid], now)
      && FromBase64UrlUInt(j.n) == Some(s.keys[j.kid].privateKey.modulus)
      && FromBase64UrlUInt(j.e) == Some(s.keys[j.kid].privateKey.publicExponent)
  {
    var r := GetJwks(s, now);
    forall j | j in r.keys
      ensures j.kid in s.keys && !Expired(s.keys[j.kid], now) && j == JwkOf(j.kid, s.keys[j.kid])
    {
      var i :| 0 <= i < |r.keys| && r.keys[i] == j;
      var kid := r.store.order[i];
      assert kid in r.store.keys && j == JwkOf(kid, r.store.keys[kid]);
      assert r.store.keys[kid] == s.keys[kid] && !Expired(s.keys[kid], now);
    }
  }

  /** Under the lifecycle invariant the current key is always published. */
  lemma JwksPublishesCurrent(s: Store, now: Micros)
    requires Inv(s)
    ensures s.currentKid.value in Kids(GetJwks(s, now).keys)
  {
    JwksCompleteness(s, now);
  }

  /** The key pair `generate_key` asks for: public exponent 65537 and a
      2048-bit modulus. */
  predicate GeneratedRsa2048(k: RsaPrivateKey)
  {
    k.publicExponent == 65537 && Pow2(2047) <= k.modulus < Pow2(2048)
  }

  /** For such a key the record carries `e = "AQAB"` and a 342-character `n`
      (256 octets). */
  lemma GeneratedKeyRecord(kid: Kid, entry: KeyEntry)
    requires GeneratedRsa2048(entry.privateKey)
    ensures JwkOf(kid, entry).e == "AQAB"
    ensures |JwkOf(kid, entry).n| == 342
  {
    ExponentBytes();
    BitLengthUnique(entry.privateKey.modulus, 2048);
    assert ByteLength(entry.privateKey.modulus) == 256;
  }

  lemma ExponentBytes()
    ensures MinimalBytes(65537) == [1, 0, 1]
    ensures Encode([1, 0, 1]) == "AQAB"
  {
    ExponentOctets();
    ExponentSextets();
    ExponentChars();
  }

  lemma ExponentSextets()
    ensures EncodeSextets([1, 0, 1]) == [0, 16, 0, 1]
  {
    EncodeOneGroup(1, 0, 1);
    assert Group(1, 0, 1) == [0, 16, 0, 1];
  }

  lemma ExponentChars()
    ensures Chars([0, 16, 0, 1]) == "AQAB"
  {
    var c := Chars([0, 16, 0, 1]);
    assert CharOf(0) == 'A' && CharOf(16) == 'Q' && CharOf(1) == 'B';
    assert c[0] == 'A' && c[1] == 'Q' && c[2] == 'A' && c[3] == 'B';
  }

  lemma ExponentOctets()
    ensures MinimalBytes(65537) == [1, 0, 1]
  {
    Pow2Add(8, 8);
    Pow2Add(16, 1);
    assert Pow2(8) == 256;
    BitLengthUnique(65537, 17);
    assert ByteLength(65537) == 3;
    assert ToBytes(1, 1) == [1];
    assert ToBytes(256, 2) == [1, 0];
    assert ToBytes(65537, 3) == [1, 0, 1];
  }
}

=== FILE: key_store.dfy ===
/** The signing-key lifecycle store of the auth service's `KeyManager`: a
    dict from key id to key record, the id of the current signing key, and
    the overlap period during which a superseded key stays published.

    Key generation and the clock are parameters: a rotation is given the
    freshly generated key and the instant `now`. */
module KeyStore {
  import opened Common
  import Decimal

  /** A key id. */
  type Kid = string

  /** An instant, in microseconds since the epoch (the resolution of Python's
      `datetime`). */
  type Micros = int

  const MicrosPerSecond: int := 1_000_000
  const MicrosPerMinute: int := 60 * MicrosPerSecond

  /** The constructor's default overlap period, in minutes. */
  const DefaultOverlapMinutes: int := 20

  /** An RSA private key. Only the public numbers are visible to this model;
      the private exponent and primes are an opaque handle. */
  datatype RsaPrivateKey = RsaPrivateKey(modulus: nat, publicExponent: nat, secret: nat)

  /** What one call of `generate_key` returns: the key id, the private key
      and the public key in PEM text. */
  datatype GeneratedKey = GeneratedKey(kid: Kid, privateKey: RsaPrivateKey, publicPem: string)

  /** One record of the key dict. `expiresAt == None` marks the active key. */
  datatype KeyEntry = KeyEntry(privateKey: RsaPrivateKey, publicPem: string, createdAt: Micros, expiresAt: Option<Micros>)

  /** The manager's state. `order` lists the dict's keys in insertion order,
      the order in which Python iterates the dict. */
  datatype Store = Store(keys: map<Kid, KeyEntry>, order: seq<Kid>, currentKid: Option<Kid>, overlapMinutes: int)

  datatype StoreError = KeyNotFound(kid: Option<Kid>)

  /** The outcome of `rotate`. The lookup of the previous current key can
      raise KeyError after the new key has already been inserted, so a
      failure carries the partially updated store. */
  datatype RotateResult = Rotated(store: Store, kid: Kid) | RotateFailed(missing: Kid, store: Store)

  /** The id `generate_key` derives from the whole-second part of the clock. */
  function KidFor(t: Micros): (r: Kid)
    requires t >= 0
    ensures |r| > 4 && r[..4] == "key-"
    ensures forall i :: 4 <= i < |r| ==> '0' <= r[i] <= '9'
    ensures Decimal.StringToNat(r[4..]) == t / MicrosPerSecond
  {
    var digits := Decimal.NatToString(t / MicrosPerSecond);
    Decimal.StringToNatToString(t / MicrosPerSecond);
    assert ("key-" + digits)[4..] == digits;
    "key-" + digits
  }

  /** Two key ids coincide exactly when they were generated in the same second. */
  lemma KidsCollideWithinASecond(t1: Micros, t2: Micros)
    requires t1 >= 0 && t2 >= 0
    ensures KidFor(t1) == KidFor(t2) <==> t1 / MicrosPerSecond == t2 / MicrosPerSecond
  {
    Decimal.NatToStringInjective(t1 / MicrosPerSecond, t2 / MicrosPerSecond);
    if KidFor(t1) == KidFor(t2) {
      assert KidFor(t1)[4..] == Decimal.NatToString(t1 / MicrosPerSecond);
      assert KidFor(t2)[4..] == Decimal.NatToString(t2 / MicrosPerSecond);
    }
  }

  /** Python's truth value of `self.current_kid`: None and "" are false. */
  predicate Truthy(kid: Option<Kid>)
  {
    kid.Some? && kid.value != ""
  }

  /** The eviction rule: an expiry is set and strictly earlier than `now`. */
  predicate Expired(e: KeyEntry, now: Micros)
  {
    e.expiresAt.Some? && e.expiresAt.value < now
  }

  /** `order` lists every key of the dict exactly once. */
  predicate Wf(s: Store)
  {
    && NoDup(s.order)
    && (forall k :: k in s.keys ==> k in s.order)
    && (forall k :: k in s.order ==> k in s.keys)
  }

  /** The lifecycle invariant: the current key is present, and it is the one
      and only key without an expiry. */
  predicate Inv(s: Store)
  {
    && Wf(s)
    && s.currentKid.Some?
    && s.currentKid.value != ""
    && s.currentKid.value in s.keys
    && (forall k :: k in s.keys ==> (s.keys[k].expiresAt.None? <==> k == s.currentKid.value))
  }

  /** The elements of `order` outside `gone`, in their original order. */
  function Keep(order: seq<Kid>, gone: set<Kid>): (r: seq<Kid>)
    ensures forall k :: k in r <==> k in order && k !in gone
    ensures NoDup(order) ==> NoDup(r)
  {
    if |order| == 0 then []
    else
      var init := Keep(order[..|order| - 1], gone);
      var last := order[|order| - 1];
      assert forall k :: k in order <==> k in order[..|order| - 1] || k == last;
      if last in gone then init else init + [last]
  }

  /** The survivors keep their relative order. */
  lemma {:induction false} KeepOrder(order: seq<Kid>, gone: set<Kid>)
    ensures Subsequence(Keep(order, gone), order)
  {
    if |order| == 0 {
      assert Embeds([], Keep(order, gone), order);
    } else {
      var n := |order|;
      var init := order[..n - 1];
      KeepOrder(init, gone);
      var idx :| Embeds(idx, Keep(init, gone), init);
      if order[n - 1] in gone {
        assert Embeds(idx, Keep(order, gone), order);
      } else {
        assert Embeds(idx + [n - 1], Keep(order, gone), order);
      }
    }
  }

  lemma {:induction false} KeepKeep(order: seq<Kid>, a: set<Kid>, b: set<Kid>)
    ensures Keep(Keep(order, a), b) == Keep(order, a + b)
  {
    if |order| > 0 {
      var init := order[..|order| - 1];
      KeepKeep(init, a, b);
      var ka := Keep(init, a);
      if order[|order| - 1] !in a {
        assert (ka + [order[|order| - 1]])[..|ka|] == ka;
      }
    }
  }

  /** The ids `cleanup` removes at `now`. */
  function ExpiredKids(s: Store, now: Micros): (r: set<Kid>)
    ensures forall k :: k in r <==> k in s.keys && Expired(s.keys[k], now)
  {
    set k | k in s.keys && Expired(s.keys[k], now)
  }

  /** `cleanup()`: evicts exactly the keys whose expiry is set and earlier
      than `now`; every surviving record and the current id are untouched. */
  function Cleanup(s: Store, now: Micros): (r: Store)
    ensures r.currentKid == s.currentKid && r.overlapMinutes == s.overlapMinutes
    ensures forall k :: k in r.keys <==> k in s.keys && !Expired(s.keys[k], now)
    ensures forall k :: k in r.keys ==> r.keys[k] == s.keys[k]
    ensures Wf(s) ==> Wf(r)
    ensures Subsequence(r.order, s.order)
  {
    var gone := ExpiredKids(s, now);
    KeepOrder(s.order, gone);
    Store(s.keys - gone, Keep(s.order, gone), s.currentKid, s.overlapMinutes)
  }

  /** `cleanup()` as the source writes it: one pass over the dict collecting
      the expired ids, then one deletion per collected id. It computes the
      same store as `Cleanup`. */
  method EvictExpired(s: Store, now: Micros) returns (r: Store)
    requires Wf(s)
    ensures r == Cleanup(s, now)
  {
    var toRemove := CollectExpired(s, now);
    var keys, order := DeleteAll(s.keys, s.order, toRemove);
    r := Store(keys, order, s.currentKid, s.overlapMinutes);
  }

  /** The first loop of `cleanup()`: the expired ids, in dict order. */
  method CollectExpired(s: Store, now: Micros) returns (toRemove: seq<Kid>)
    requires Wf(s)
    ensures Elems(toRemove) == ExpiredKids(s, now)
  {
    toRemove := [];
    var i := 0;
    while i < |s.order|
      invariant 0 <= i <= |s.order|
      invariant forall k :: k in toRemove <==> k in s.order[..i] && Expired(s.keys[k], now)
    {
      var kid := s.order[i];
      assert s.order[..i + 1] == s.order[..i] + [kid];
      if Expired(s.keys[kid], now) {
        toRemove := toRemove + [kid];
      }
      i := i + 1;
    }
    assert s.order[..i] == s.order;
  }

  /** The second loop of `cleanup()`: `del self.keys[kid]` for each collected id. */
  method DeleteAll(keys0: map<Kid, KeyEntry>, order0: seq<Kid>, toRemove: seq<Kid>)
    returns (keys: map<Kid, KeyEntry>, order: seq<Kid>)
    ensures keys == keys0 - Elems(toRemove)
    ensures order == Keep(order0, Elems(toRemove))
  {
    keys, order := keys0, order0;
    var j := 0;
    ghost var removed: set<Kid> := {};
    assert keys0 - {} == keys0;
    KeepNothing(order0);
    while j < |toRemove|
      invariant 0 <= j <= |toRemove|
      invariant removed == Elems(toRemove[..j])
      invariant keys == keys0 - removed
      invariant order == Keep(order0, removed)
    {
      var kid := toRemove[j];
      ElemsSnoc(toRemove, j);
      KeepKeep(order0, removed, {kid});
      MinusMinus(keys0, removed, {kid});
      keys := keys - {kid};
      order := Keep(order, {kid});
      removed := removed + {kid};
      j := j + 1;
    }
    assert toRemove[..j] == toRemove;
  }

  lemma MinusMinus(m: map<Kid, KeyEntry>, a: set<Kid>, b: set<Kid>)
    ensures m - a - b == m - (a + b)
  {
  }

  lemma ElemsSnoc(s: seq<Kid>, j: nat)
    requires j < |s|
    ensures Elems(s[..j + 1]) == Elems(s[..j]) + {s[j]}
  {
    assert s[..j + 1] == s[..j] + [s[j]];
  }

  /** A second cleanup at the same instant changes nothing. */
  lemma CleanupIdempotent(s: Store, now: Micros)
    requires Wf(s)
    ensures Cleanup(Cleanup(s, now), now) == Cleanup(s, now)
  {
    var c := Cleanup(s, now);
    assert ExpiredKids(c, now) == {};
    assert c.keys - {} == c.keys;
    KeepNothing(c.order);
  }

  lemma {:induction false} KeepNothing(order: seq<Kid>)
    ensures Keep(order, {}) == order
  {
    if |order| > 0 {
      KeepNothing(order[..|order| - 1]);
    }
  }

  /** Cleanup never evicts the current key, keeps a key that expires exactly
      at `now`, and preserves the lifecycle invariant. */
  lemma CleanupKeepsCurrent(s: Store, now: Micros, k: Kid)
    requires Inv(s)
    ensures Inv(Cleanup(s, now))
    ensures k in s.keys && s.keys[k].expiresAt == Some(now) ==> k in Cleanup(s, now).keys
  {
  }

  /** `kid` names no stored key and is not the current id. */
  predicate Fresh(s: Store, kid: Kid)
  {
    kid !in s.keys && s.currentKid != Some(kid)
  }

  /** The record a rotation inserts for the new key. */
  function ActiveEntry(g: GeneratedKey, now: Micros): KeyEntry
  {
    KeyEntry(g.privateKey, g.publicPem, now, None)
  }

  /** `self.keys[kid] = {...}`: the new key, active, inserted or overwriting
      a record of the same id (which keeps its place in the dict order). */
  function InsertActive(s: Store, g: GeneratedKey, now: Micros): (r: Store)
    ensures r.keys == s.keys[g.kid := ActiveEntry(g, now)]
    ensures r.currentKid == s.currentKid && r.overlapMinutes == s.overlapMinutes
    ensures Wf(s) ==> Wf(r)
  {
    var order := if g.kid in s.keys then s.order else s.order + [g.kid];
    Store(s.keys[g.kid := ActiveEntry(g, now)], order, s.currentKid, s.overlapMinutes)
  }

  /** The expiry a rotation at `now` gives the key it supersedes. */
  function RetireAt(s: Store, now: Micros): Micros
  {
    now + s.overlapMinutes * MicrosPerMinute
  }

  /** The retirement instant is in the past exactly for a negative overlap. */
  lemma RetireAtPast(s: Store, now: Micros)
    ensures RetireAt(s, now) < now <==> s.overlapMinutes < 0
  {
    assert MicrosPerMinute == 60_000_000;
  }

  /** `self.keys[self.current_kid]["expires_at"] = now + overlap`. */
  function Retire(s: Store, prev: Kid, now: Micros): (r: Store)
    requires prev in s.keys
    ensures r.keys == s.keys[prev := s.keys[prev].(expiresAt := Some(RetireAt(s, now)))]
    ensures r.currentKid == s.currentKid && r.overlapMinutes == s.overlapMinutes
    ensures Wf(s) ==> Wf(r)
  {
    Store(s.keys[prev := s.keys[prev].(expiresAt := Some(RetireAt(s, now)))], s.order, s.currentKid, s.overlapMinutes)
  }

  /** `rotate()`: insert the new key as active, stamp the previous current
      key (when the current id is truthy) with expiry `now + overlap`, make
      the new key current, then clean up at `now`. */
  function Rotate(s: Store, g: GeneratedKey, now: Micros): (r: RotateResult)
    ensures r.RotateFailed? <==> Truthy(s.currentKid) && s.currentKid.value !in s.keys && s.currentKid.value != g.kid
    ensures r.RotateFailed? ==>
      && r.store.keys == s.keys[g.kid := ActiveEntry(g, now)]
      && r.store.currentKid == s.currentKid
      && r.missing == s.currentKid.value
    ensures r.Rotated? ==> r.kid == g.kid && r.store.currentKid == Some(g.kid)
    ensures r.store.overlapMinutes == s.overlapMinutes
    ensures Wf(s) ==> Wf(r.store)
  {
    var s1 := InsertActive(s, g, now);
    if !Truthy(s.currentKid) then
      Rotated(Cleanup(s1.(currentKid := Some(g.kid)), now), g.kid)
    else if s.currentKid.value !in s1.keys then
      RotateFailed(s.currentKid.value, s1)
    else
      Rotated(Cleanup(Retire(s1, s.currentKid.value, now).(currentKid := Some(g.kid)), now), g.kid)
  }

  /** With a fresh id the new key survives the rotation's own cleanup as the
      active key, created at `now`. */
  lemma RotateInsertsActiveKey(s: Store, g: GeneratedKey, now: Micros)
    requires Fresh(s, g.kid)
    requires Rotate(s, g, now).Rotated?
    ensures var r := Rotate(s, g, now).store;
      g.kid in r.keys && r.keys[g.kid] == ActiveEntry(g, now)
  {
  }

  /** The previous current key, when distinct from the new one, is kept
      exactly when the overlap is non-negative, stamped with expiry
      `now + overlap` and otherwise unchanged. */
  lemma RotateRetiresPrevious(s: Store, g: GeneratedKey, now: Micros)
    requires Rotate(s, g, now).Rotated?
    requires Truthy(s.currentKid) && s.currentKid.value != g.kid
    ensures var r := Rotate(s, g, now).store;
      var prev := s.currentKid.value;
      && (prev in r.keys <==> s.overlapMinutes >= 0)
      && (prev in r.keys ==>
            r.keys[prev] == s.keys[prev].(expiresAt := Some(now + s.overlapMinutes * MicrosPerMinute)))
  {
    var prev := s.currentKid.value;
    var s1 := InsertActive(s, g, now);
    var s2 := Retire(s1, prev, now).(currentKid := Some(g.kid));
    assert Rotate(s, g, now).store == Cleanup(s2, now);
    assert s2.keys[prev] == s.keys[prev].(expiresAt := Some(RetireAt(s, now)));
    RetireAtPast(s, now);
  }

  /** Every key other than the new one and the previous current one survives
      the rotation exactly when it is not expired at `now`, unchanged. */
  lemma RotateKeepsOthers(s: Store, g: GeneratedKey, now: Micros, k: Kid)
    requires Rotate(s, g, now).Rotated?
    requires k != g.kid && !(Truthy(s.currentKid) && k == s.currentKid.value)
    ensures var r := Rotate(s, g, now).store;
      && (k in r.keys <==> k in s.keys && !Expired(s.keys[k], now))
      && (k in r.keys ==> r.keys[k] == s.keys[k])
  {
    var s1 := InsertActive(s, g, now);
    if Truthy(s.currentKid) {
      var s2 := Retire(s1, s.currentKid.value, now).(currentKid := Some(g.kid));
      assert Rotate(s, g, now).store == Cleanup(s2, now);
      assert k in s2.keys <==> k in s.keys;
      assert k in s2.keys ==> s2.keys[k] == s.keys[k];
    } else {
      var s2 := s1.(currentKid := Some(g.kid));
      assert Rotate(s, g, now).store == Cleanup(s2, now);
      assert k in s2.keys <==> k in s.keys;
    }
  }

  /** Rotation with a fresh, non-empty id preserves the lifecycle invariant,
      and the new key becomes the sole active key. */
  lemma RotatePreservesInv(s: Store, g: GeneratedKey, now: Micros)
    requires Inv(s)
    requires g.kid !in s.keys && g.kid != ""
    ensures Rotate(s, g, now).Rotated?
    ensures Inv(Rotate(s, g, now).store)
  {
    RotateInsertsActiveKey(s, g, now);
    RotateRetiresPrevious(s, g, now);
    forall k | k in Rotate(s, g, now).store.keys
      ensures Rotate(s, g, now).store.keys[k].expiresAt.None? <==> k == g.kid
    {
      if k != g.kid && k != s.currentKid.value {
        RotateKeepsOthers(s, g, now, k);
      }
    }
  }

  /** `__init__`: an empty dict with no current id, then one rotation. */
  function Init(overlapMinutes: int, g: GeneratedKey, now: Micros): (r: Store)
    ensures r.keys == map[g.kid := ActiveEntry(g, now)]
    ensures r.order == [g.kid]
    ensures r.currentKid == Some(g.kid)
    ensures r.overlapMinutes == overlapMinutes
    ensures g.kid != "" ==> Inv(r)
  {
    InitUnfold(overlapMinutes, g, now);
    Rotate(Store(map[], [], None, overlapMinutes), g, now).store
  }

  /** The first rotation inserts into the empty dict, and its cleanup finds
      nothing to evict. */
  lemma InitUnfold(overlapMinutes: int, g: GeneratedKey, now: Micros)
    ensures Rotate(Store(map[], [], None, overlapMinutes), g, now).store
      == Store(map[g.kid := ActiveEntry(g, now)], [g.kid], Some(g.kid), overlapMinutes)
  {
    var e := Store(map[], [], None, overlapMinutes);
    var s1 := InsertActive(e, g, now);
    assert s1.order == [g.kid];
    var t := s1.(currentKid := Some(g.kid));
    assert Rotate(e, g, now) == Rotated(Cleanup(t, now), g.kid);
    CleanupNothingExpired(t, now);
  }

  /** A cleanup that finds nothing expired leaves the store as it was. */
  lemma CleanupNothingExpired(t: Store, now: Micros)
    requires forall k :: k in t.keys ==> !Expired(t.keys[k], now)
    ensures Cleanup(t, now) == t
  {
    assert ExpiredKids(t, now) == {};
    assert t.keys - {} == t.keys;
    KeepNothing(t.order);
  }

  /** `KeyManager()` with the default overlap of 20 minutes. */
  function InitDefault(g: GeneratedKey, now: Micros): (r: Store)
    ensures r.overlapMinutes == 20
    ensures r.currentKid == Some(g.kid) && r.order == [g.kid]
    ensures g.kid != "" ==> Inv(r)
  {
    Init(DefaultOverlapMinutes, g, now)
  }

  /** `get_current_key()`: the current private key and its id. */
  function GetCurrentKey(s: Store): (r: Result<(RsaPrivateKey, Kid), StoreError>)
    ensures r.Success? <==> s.currentKid.Some? && s.currentKid.value in s.keys
    ensures r.Success? ==> r.value.1 == s.currentKid.value && r.value.0 == s.keys[r.value.1].privateKey
  {
    if s.currentKid.Some? && s.currentKid.value in s.keys then
      Success((s.keys[s.currentKid.value].privateKey, s.currentKid.value))
    else
      Failure(KeyNotFound(s.currentKid))
  }

  /** Under the invariant the current key is always available, and it is the
      only key without an expiry; after a fresh rotation it is the new key. */
  lemma CurrentKeyIsActive(s: Store, g: GeneratedKey, now: Micros)
    requires Inv(s)
    ensures GetCurrentKey(s).Success?
    ensures forall k :: k in s.keys && s.keys[k].expiresAt.None? ==> GetCurrentKey(s).value.1 == k
    ensures g.kid !in s.keys && g.kid != "" ==>
      GetCurrentKey(Rotate(s, g, now).store) == Success((g.privateKey, g.kid))
  {
    if g.kid !in s.keys && g.kid != "" {
      RotatePreservesInv(s, g, now);
      RotateInsertsActiveKey(s, g, now);
    }
  }

  /** Rotating twice within one second reuses the id: the new record
      overwrites the current one and then receives the expiry meant for its
      predecessor, so no key is left active. With a negative overlap the
      current key is even evicted, and the next rotation with a new id (a
      later second) raises KeyError. */
  lemma RotateCollision(s: Store, g: GeneratedKey, now: Micros, g2: GeneratedKey)
    requires Inv(s)
    requires g.kid == s.currentKid.value
    ensures Rotate(s, g, now).Rotated?
    ensures var r := Rotate(s, g, now).store;
      && (forall k :: k in r.keys ==> r.keys[k].expiresAt.Some?)
      && (s.overlapMinutes < 0 ==> g.kid !in r.keys)
      && (s.overlapMinutes < 0 && g2.kid != g.kid ==> Rotate(r, g2, now).RotateFailed?)
  {
    var r := Rotate(s, g, now).store;
    CollisionStore(s, g, now);
    if s.overlapMinutes < 0 && g2.kid != g.kid {
      assert Truthy(r.currentKid) && r.currentKid.value !in r.keys;
    }
  }

  /** The store a colliding rotation leaves: every key carries an expiry,
      and the reused id is gone for a negative overlap. */
  lemma CollisionStore(s: Store, g: GeneratedKey, now: Micros)
    requires Inv(s)
    requires g.kid == s.currentKid.value
    ensures Rotate(s, g, now).Rotated?
    ensures var r := Rotate(s, g, now).store;
      && r.currentKid == Some(g.kid) && g.kid != ""
      && (forall k :: k in r.keys ==> r.keys[k].expiresAt.Some?)
      && (s.overlapMinutes < 0 ==> g.kid !in r.keys)
  {
    var t := Retire(InsertActive(s, g, now), g.kid, now).(currentKid := Some(g.kid));
    forall k | k in t.keys
      ensures t.keys[k].expiresAt.Some?
    {
      if k != g.kid {
        assert t.keys[k] == s.keys[k];
      }
    }
    var c := Cleanup(t, now);
    RetireAtPast(s, now);
    assert s.overlapMinutes < 0 ==> Expired(t.keys[g.kid], now);
    CollisionUnfold(s, g, now);
    assert Rotate(s, g, now).store == c;
  }

  /** A colliding rotation inserts, retires the reused id itself, and cleans up. */
  lemma CollisionUnfold(s: Store, g: GeneratedKey, now: Micros)
    requires Inv(s)
    requires g.kid == s.currentKid.value
    ensures Rotate(s, g, now) ==
      Rotated(Cleanup(Retire(InsertActive(s, g, now), g.kid, now).(currentKid := Some(g.kid)), now), g.kid)
  {
  }
}

=== FILE: py_split.dfy ===
/** Python's `str.split(sep)` with an explicit one-character separator:
    every occurrence separates two fields, empty fields are kept, so a text
    with `k` separators has `k + 1` fields. `Join` is `sep.join(parts)`. */
module PySplit {

  function Split(s: string, sep: char): (r: seq<string>)
    ensures |r| >= 1
    ensures forall i :: 0 <= i < |r| ==> sep !in r[i]
    ensures |r| >= 2 <==> sep in s
  {
    if |s| == 0 then [""]
    else
      var rest := Split(s[1..], sep);
      assert forall c :: c in s <==> c == s[0] || c in s[1..];
      if s[0] == sep then [""] + rest
      else [[s[0]] + rest[0]] + rest[1..]
  }

  function Join(parts: seq<string>, sep: char): string
    requires |parts| >= 1
  {
    if |parts| == 1 then parts[0] else parts[0] + [sep] + Join(parts[1..], sep)
  }

  /** Joining the fields with the separator restores the text. */
  lemma {:induction false} JoinSplit(s: string, sep: char)
    ensures Join(Split(s, sep), sep) == s
  {
    if |s| > 0 {
      var rest := Split(s[1..], sep);
      JoinSplit(s[1..], sep);
      assert s == [s[0]] + s[1..];
      if s[0] == sep {
        assert ([""] + rest)[1..] == rest;
        assert Join(Split(s, sep), sep) == "" + [sep] + Join(rest, sep);
      } else {
        JoinPrepend([s[0]], rest, sep);
      }
    }
  }

  /** Prepending to the first field prepends to the joined text. */
  lemma JoinPrepend(x: string, parts: seq<string>, sep: char)
    requires |parts| >= 1
    ensures Join([x + parts[0]] + parts[1..], sep) == x + Join(parts, sep)
  {
    var q := [x + parts[0]] + parts[1..];
    if |parts| > 1 {
      assert q[1..] == parts[1..];
      assert Join(q, sep) == (x + parts[0]) + [sep] + Join(parts[1..], sep);
    }
  }

  /** A field without the separator, followed by the separator, splits off
      as the first field. */
  lemma {:induction false} SplitFirstField(p: string, rest: string, sep: char)
    requires sep !in p
    ensures Split(p + [sep] + rest, sep) == [p] + Split(rest, sep)
  {
    if |p| > 0 {
      SplitFirstField(p[1..], rest, sep);
      assert (p + [sep] + rest)[1..] == p[1..] + [sep] + rest;
      assert [p[0]] + p[1..] == p;
    } else {
      assert p + [sep] + rest == [sep] + rest;
    }
  }

  lemma {:induction false} SplitNoSeparator(p: string, sep: char)
    requires sep !in p
    ensures Split(p, sep) == [p]
  {
    if |p| > 0 {
      SplitNoSeparator(p[1..], sep);
      assert [p[0]] + p[1..] == p;
    }
  }

  /** Splitting a join of separator-free fields gives the fields back. */
  lemma {:induction false} SplitJoin(parts: seq<string>, sep: char)
    requires |parts| >= 1
    requires forall i :: 0 <= i < |parts| ==> sep !in parts[i]
    ensures Split(Join(parts, sep), sep) == parts
  {
    if |parts| == 1 {
      SplitNoSeparator(parts[0], sep);
    } else {
      SplitJoin(parts[1..], sep);
      SplitFirstField(parts[0], Join(parts[1..], sep), sep);
      assert [parts[0]] + parts[1..] == parts;
    }
  }
}

=== FILE: resource_gate.dfy ===
/** The resource service's `token_required` wrapper: take the token from
    the `Authorization` header, have it verified (a parameter standing for
    RS256 verification with the service's public key), insist on an access
    token, and hand its subject to the wrapped handler. */
module ResourceGate {
  import opened Common
  import opened Claims
  import PySplit

  /** The wrapper's verdict: call the handler with `currentUser`, answer
      with a status and message, or an uncaught KeyError (an HTTP 500). */
  datatype GateOutcome = Admit(currentUser: string) | Deny(status: int, message: string) | GateError

  /** The token the header yields, or why there is none. */
  datatype Extraction = Token(value: string) | FormatInvalid | Missing

  const FormatInvalidMessage: string := "Token format invalid!"
  const MissingMessage: string := "Token is missing!"
  const ExpiredMessage: string := "Token expired!"
  const WrongTypeMessage: string := "Invalid token type! Expected access token."

  /** `auth_header.split(" ")[1]` guarded by the header's truth value, then
      `if not token`. The scheme word is not looked at. */
  function ExtractToken(header: Option<string>): (r: Extraction)
    ensures header.None? || header == Some("") ==> r == Missing
    ensures header.Some? && header.value != "" && ' ' !in header.value ==> r == FormatInvalid
    ensures header.Some? && ' ' in header.value ==>
      var field := PySplit.Split(header.value, ' ')[1];
      r == (if field == "" then Missing else Token(field))
    ensures r.Token? ==> r.value != "" && ' ' !in r.value
  {
    if header.None? || header.value == "" then Missing
    else
      var fields := PySplit.Split(header.value, ' ');
      if |fields| < 2 then FormatInvalid
      else if fields[1] == "" then Missing
      else Token(fields[1])
  }

  /** The token is the word after the first space, up to the next space,
      whatever the first word is. */
  lemma ExtractAfterScheme(scheme: string, token: string, tail: string)
    requires ' ' !in scheme && ' ' !in token && token != ""
    ensures ExtractToken(Some(scheme + " " + token)) == Token(token)
    ensures ExtractToken(Some(scheme + " " + token + " " + tail)) == Token(token)
  {
    var h1 := scheme + " " + token;
    assert h1 == scheme + [' '] + token;
    PySplit.SplitFirstField(scheme, token, ' ');
    PySplit.SplitNoSeparator(token, ' ');
    SecondField(h1, token);
    var h2 := scheme + " " + token + " " + tail;
    assert h2 == scheme + [' '] + (token + [' '] + tail);
    PySplit.SplitFirstField(scheme, token + [' '] + tail, ' ');
    PySplit.SplitFirstField(token, tail, ' ');
    SecondField(h2, token);
  }

  /** A header whose second field is a non-empty word yields that word. */
  lemma SecondField(h: string, token: string)
    requires token != ""
    requires |PySplit.Split(h, ' ')| >= 2 && PySplit.Split(h, ' ')[1] == token
    ensures ExtractToken(Some(h)) == Token(token)
  {
  }

  /** Any scheme word is accepted: `Foo xyz` yields `xyz`. */
  lemma ExtractAnyScheme()
    ensures ExtractToken(Some("Foo xyz")) == Token("xyz")
  {
    ExtractAfterScheme("Foo", "xyz", "");
    assert "Foo" + " " + "xyz" == "Foo xyz";
  }

  /** An empty second field counts as a missing token: `Bearer ` and
      `Bearer  x` both yield "Token is missing!". */
  lemma ExtractEmptyField(rest: string)
    requires rest == "" || rest[0] == ' '
    ensures ExtractToken(Some("Bearer " + rest)) == Missing
  {
    PySplit.SplitFirstField("Bearer", rest, ' ');
    assert "Bearer " + rest == "Bearer" + [' '] + rest;
    if rest != "" && rest[0] == ' ' {
      PySplit.SplitFirstField("", rest[1..], ' ');
      assert rest == "" + [' '] + rest[1..];
    }
  }

  /** Any non-empty header without a space is a format error, whatever the
      verifier would have said. */
  lemma ExtractNoSpace(h: string, decode: string -> DecodeResult)
    requires h != "" && ' ' !in h
    ensures ExtractToken(Some(h)) == FormatInvalid
    ensures TokenRequired(Some(h), decode) == Deny(401, FormatInvalidMessage)
  {
    PySplit.SplitNoSeparator(h, ' ');
  }

  /** `decorated(...)`: the checks in source order — header format, token
      presence, signature and expiry, token type — the first failing one
      deciding the reply. */
  function TokenRequired(header: Option<string>, decode: string -> DecodeResult): (r: GateOutcome)
    ensures ExtractToken(header) == FormatInvalid ==> r == Deny(401, FormatInvalidMessage)
    ensures ExtractToken(header) == Missing ==> r == Deny(401, MissingMessage)
    ensures ExtractToken(header).Token? && decode(ExtractToken(header).value).ExpiredSignature? ==>
      r == Deny(401, ExpiredMessage)
    ensures ExtractToken(header).Token? && decode(ExtractToken(header).value).InvalidToken? ==>
      r == Deny(401, "Invalid token: " + decode(ExtractToken(header).value).message)
    ensures ExtractToken(header).Token? && decode(ExtractToken(header).value).Decoded? ==>
      var p := decode(ExtractToken(header).value).payload;
      && (p.typ.None? || (p.typ == Some(AccessType) && p.sub.None?) ==> r == GateError)
      && (p.typ.Some? && p.typ.value != AccessType ==> r == Deny(401, WrongTypeMessage))
    ensures r.Admit? <==>
      && ExtractToken(header).Token?
      && var d := decode(ExtractToken(header).value);
      && d.Decoded? && d.payload.typ == Some(AccessType) && d.payload.sub.Some?
    ensures r.Admit? ==> r.currentUser == decode(ExtractToken(header).value).payload.sub.value
  {
    match ExtractToken(header)
    case FormatInvalid => Deny(401, FormatInvalidMessage)
    case Missing => Deny(401, MissingMessage)
    case Token(token) =>
      match decode(token)
      case ExpiredSignature => Deny(401, ExpiredMessage)
      case InvalidToken(message) => Deny(401, "Invalid token: " + message)
      case Decoded(data) =>
        if data.typ.None? then GateError
        else if data.typ.value != AccessType then Deny(401, WrongTypeMessage)
        else if data.sub.None? then GateError
        else Admit(data.sub.value)
  }

  /** The verifier is consulted only for the extracted token: two verifiers
      that agree on it give the same outcome, and none is consulted when the
      header check fails. */
  lemma GateConsultsOnlyExtractedToken(header: Option<string>, d1: string -> DecodeResult, d2: string -> DecodeResult)
    requires ExtractToken(header).Token? ==> d1(ExtractToken(header).value) == d2(ExtractToken(header).value)
    ensures TokenRequired(header, d1) == TokenRequired(header, d2)
  {
  }

  /** A verified token whose type is not `access` is refused with 401, and
      an expired one with "Token expired!". */
  lemma GateRejectsNonAccess(header: Option<string>, decode: string -> DecodeResult)
    requires ExtractToken(header).Token?
    ensures var d := decode(ExtractToken(header).value);
      && (d.Decoded? && d.payload.typ.Some? && d.payload.typ.value != AccessType ==>
            TokenRequired(header, decode) == Deny(401, WrongTypeMessage))
      && (d.ExpiredSignature? ==> TokenRequired(header, decode) == Deny(401, ExpiredMessage))
  {
  }

  /** An access token minted by the auth service admits its subject; a
      refresh token verified by the same key is refused as the wrong type. */
  lemma IssuedTokensAtTheGate(cfg: TokenConfig, catalog: Catalog, username: string, roles: seq<string>,
                              now: int, token: string, decode: string -> DecodeResult)
    requires ' ' !in token && token != ""
    ensures decode(token) == Decoded(AccessPayload(cfg, catalog, username, roles, now)) ==>
      TokenRequired(Some("Bearer " + token), decode) == Admit(username)
    ensures decode(token) == Decoded(RefreshPayload(cfg, username, now)) ==>
      TokenRequired(Some("Bearer " + token), decode) == Deny(401, WrongTypeMessage)
  {
    ExtractAfterScheme("Bearer", token, "");
    assert "Bearer" + " " + token == "Bearer " + token;
    assert RefreshType[0] != AccessType[0];
  }
}
